=== FILE: README.md ===
# Diagonal Sudoku solver — a Dafny model

This project models `solution.py`, a solver for 9×9 Sudoku whose two main
diagonals are extra constraints. It combines constraint propagation with
depth-first search. A board maps each of the 81 boxes (`A1` … `I9`) to the
string of digits still possible there. The solver has six parts:

- **Topology.** The fixed tables: `boxes`, the 29 units (9 rows, 9 columns, 9
  squares, 2 diagonals), the units of each box and the peers of each box. This
  is the module `Topology`.
- **Decoding.** `grid_values` turns an 81-character string into a board, with a
  `.` standing for all nine digits (`Solver.GridValues`).
- **Logged update.** `assign_value` is the only write primitive. It skips a
  write that changes nothing. After any other write that leaves one candidate,
  it appends a copy of the board to the global `assignments` list
  (`Propagation.AssignValue`).
- **Rules.** There are three propagation rules, each in `Propagation`:
  - `eliminate` removes each solved digit from the box's peers.
  - `only_choice` pins a digit that fits only one box of a unit.
  - `naked_twins` handles naked pairs, triples and quads. When k boxes of a unit
    hold the same k-character string, those characters leave the unit's other
    boxes.
- **Fixpoint.** `reduce_puzzle` repeats the three rules until a pass solves no
  new box. It reports failure when a box is left empty.
- **Search.** `search` and `solve` perform depth-first search. Each step picks the
  unsolved box with the fewest candidates, breaking ties by the smaller name.
  Each candidate digit is tried on a copy of the board (`Solver`).

The model follows the code's imperative form:

- The dictionary `values` is a `Board` object whose field `values` is a
  `map<string, string>`.
- The rules are methods that update that field one box at a time, through
  `AssignValue`.
- The global `assignments` list is an `AssignmentLog` object passed to every
  method. Its field `assignments` is a sequence of boards.
- `values.copy()` in `search` is a fresh `Board`.

Candidates stay strings, as in Python. `naked_twins` compares them by exact
string equality, and the rules edit them with `str.replace`. `RemoveChar` and
`Replace` model those edits.

The peers in `eliminate` are a Python set, whose order depends on string
hashing and is not fixed. The boxes in `naked_twins` (solution.py:50) and the
items in `grid_values` (solution.py:85) come from dictionaries. Those iterate in
insertion order, which here is the order of `boxes`. The result of
`naked_twins` can depend on that order, since a unit's turn sees what earlier
turns left.

Two more loops run over lists in a fixed order, and their resulting board
does not depend on that order:

- the boxes to clear in a unit (solution.py:66-67);
- the boxes that `min` compares (solution.py:163).

The loop over the solved boxes in `eliminate` (solution.py:115-116) also runs
over a list, but its order can matter. When two solved peers hold the same
digit, the one visited first empties the other. The emptied box then removes
nothing on its own turn. So the order decides which of the two is emptied, and
what is logged. Either way some box ends empty, and `reduce_puzzle` returns
false. When no two solved peers share a digit, every solved box keeps its
digit, and the board does not depend on the order.

The model visits all of these in an arbitrary order, chosen with `:|`. Every
contract therefore holds for Python's order, whether insertion order or list
order, and for every other order.

What is proved, in short:

- **Tables.**
  - 81 distinct boxes, in row-major order.
  - 29 units of nine distinct boxes.
  - `units[s]` is exactly the units containing `s`.
  - `peers[s]` is their union without `s`, and the peer relation is symmetric.
- **Rules.** Every rule only narrows the board.
  - `eliminate` leaves no solved digit in a peer of a box that still holds it.
    Every candidate it removes is the digit of a solved peer.
  - `only_choice` only pins a box to one of its own candidates.
  - In one unit's turn of `naked_twins`, each naked group (as found when the
    turn begins) strips its characters from the unit's other boxes.
  - One group's elimination never writes that group's own boxes, and a unit's
    turn never writes outside the unit. A group's boxes can still lose the
    digits of another naked group of the same unit. Later units can narrow
    any box again.
- **`reduce_puzzle`.**
  - It terminates: the solved count only rises and is at most 81.
  - It returns false exactly when some box is empty.
  - Otherwise no solved digit repeats among peers.
- **`search`.**
  - It terminates: the total candidate count falls at each recursive call.
  - Any solution it returns is complete, has no conflicts and narrows the
    input.
  - `solve` keeps every given digit.
  - Such a board holds each digit exactly once per unit, once the input uses
    only digits and dots (`Candidates.UnitsHoldEveryDigit`).

## Model

| member | source | states |
|---|---|---|
| Topology.RowOf | solution.py:7 | defines one row of the cross product, the names `a+b` for one `a`; its properties are stated by CrossMember and CrossAt |
| Topology.Cross | solution.py:5-7 | defines `cross(A, B)`, the names `a+b` with `a` outermost; its length, members, order and distinctness are stated by CrossLength, CrossMember, CrossAt, CrossDistinct and CrossSorted |
| Topology.CrossLength | solution.py:5-7 | `cross(A, B)` has `len(A) * len(B)` names |
| Topology.CrossMember | solution.py:5-7 | a name is in `cross(A, B)` iff it is a character of A followed by a character of B |
| Topology.CrossAt | solution.py:5-7 | `cross` is row-major: position `i*len(B)+j` is `A[i]+B[j]` |
| Topology.CrossDistinct | solution.py:5-7 | distinct characters in A and B give distinct names |
| Topology.CrossSorted | solution.py:5-7 | ascending A and B give names in ascending string order |
| Topology.RowsAndColsAscending | solution.py:2-3 | the row letters and the column digits are distinct and ascending |
| Topology.BoxNames | solution.py:9 | defines `boxes` position by position; BoxesAreCross states that it is `cross(rows, cols)` and BoxesShape that it is 81 distinct, ascending names |
| Topology.BoxesAreCross | solution.py:9 | `boxes` is `cross(rows, cols)` |
| Topology.BoxesShape | solution.py:9 | there are 81 boxes, pairwise distinct and in ascending name order |
| Topology.BoxMember | solution.py:9 | a string is a box iff it is a letter A–I followed by a digit 1–9 |
| Topology.BoxAt | solution.py:9 | box number `9r+c` is row r, column c |
| Topology.RowAndColumnNames | solution.py:2-3 | `rows` holds exactly the letters A–I and `cols` exactly the digits 1–9 |
| Topology.CrossUnit | solution.py:11-13 | a nine-name cross of row letters and column digits is a unit: nine distinct boxes |
| Topology.RowUnits | solution.py:11 | defines `row_units`; RowAndColumnUnitsShape states that there are nine, each a unit |
| Topology.ColumnUnits | solution.py:12 | defines `column_units`; RowAndColumnUnitsShape states that there are nine, each a unit |
| Topology.SquareUnits | solution.py:13 | defines `square_units`; SquareUnitsShape states that there are nine, each a unit |
| Topology.DiagUnits | solution.py:16-19 | defines `diag_units`, the main diagonal and the anti-diagonal; DiagUnitsShape states that both are units |
| Topology.UnitList | solution.py:20 | defines `unitlist` as the four lists in order; UnitListShape states that it has 29 units |
| Topology.Units | solution.py:21 | defines `units[s]`; UnitsIff states that it holds exactly the units containing s |
| Topology.Peers | solution.py:22 | defines `peers[s]`; PeerIff, PeersAsUnion and PeersSymmetric state what it holds |
| Topology.RowAndColumnUnitsShape | solution.py:11-12 | there are 9 row units and 9 column units, each nine distinct boxes |
| Topology.SquareUnitsShape | solution.py:13 | there are 9 square units, each nine distinct boxes |
| Topology.DiagUnitsShape | solution.py:16-19 | there are 2 diagonal units, each nine distinct boxes |
| Topology.UnitListShape | solution.py:20 | `unitlist` has 29 units, each nine distinct boxes |
| Topology.UnitShape | solution.py:20 | every member of `unitlist` is nine distinct boxes |
| Topology.UnitsContaining | solution.py:21 | defines the filter `[u for u in us if s in u]`, keeping the order of `us`; UnitsContainingIff states which units it keeps |
| Topology.UnitsContainingIff | solution.py:21 | the filter `[u for u in us if s in u]` keeps exactly the units of `us` containing s |
| Topology.UnitsIff | solution.py:21 | `units[s]` holds exactly the units of `unitlist` that contain s |
| Topology.UnitsAreUnits | solution.py:21 | every unit in `units[s]` contains s and is nine distinct boxes |
| Topology.Flatten | solution.py:22 | defines `sum(us, [])`, the lists of `us` joined in order; FlattenIff states which boxes it holds |
| Topology.FlattenIff | solution.py:22 | `sum(units[s], [])` holds exactly the boxes of some unit in the list |
| Topology.InSomeIff | solution.py:22 | the test used by `Peers` holds iff some unit of the list contains the box |
| Topology.PeerIff | solution.py:22 | s is not its own peer; t is a peer of s iff t differs from s and shares a unit with it |
| Topology.PeersAsUnion | solution.py:22 | `peers[s]` is the union of the units of s minus `{s}` |
| Topology.PeersSymmetric | solution.py:22 | t is a peer of s iff s is a peer of t |
| Topology.UnitMatesArePeers | solution.py:22 | two different boxes of one unit are peers |
| Topology.PeersAreBoxes | solution.py:22 | every peer is a box name |
| Topology.StrLess | solution.py:163 | defines Python's string order, as `min` compares names: character by character, with a proper prefix first; StrLessIrreflexive, StrLessTransitive and StrLessTotal state that it is a strict total order |
| Topology.StrLessIrreflexive | solution.py:163 | Python's string order: no name is below itself |
| Topology.StrLessTransitive | solution.py:163 | Python's string order is transitive, as `min` over tuples needs |
| Topology.StrLessTotal | solution.py:163 | two different names are ordered one way or the other, so the `min` is unique |
| Candidates.RemoveChar | solution.py:69 | `s.replace(c, '')` keeps exactly the characters other than c; it is shorter iff c occurred, and unchanged otherwise |
| Candidates.Replace | solution.py:117-119 | `value.replace(digit, '')` for a digit string of at most one character: keeps exactly the characters not in the digit string and never lengthens (an empty digit string removes nothing) |
| Candidates.Strip | solution.py:64-69 | defines the effect of replacing away each digit of a set; StripIff states which characters stay, and StripThenRemove that one more `replace` is a strip by one more digit |
| Candidates.StripIff | solution.py:64-69 | removing a set of digits keeps exactly the other characters and never lengthens |
| Candidates.StripThenRemove | solution.py:65-69 | one more `replace` after removing a set of digits removes that set plus one digit |
| Candidates.StripStrip | solution.py:64-69 | two naked groups in turn remove the union of their digits |
| Candidates.StripNothing | solution.py:64-69 | removing no digits leaves the string as it is |
| Candidates.Solved | solution.py:115 | defines the set of boxes with one candidate, used by eliminate and by the counts of reduce_puzzle; SolvedGrows and SolvedBound state how it evolves |
| Candidates.AllSolved | solution.py:160 | defines search's completeness test; Search and Solve state what a board passing it satisfies |
| Candidates.SingleStays | solution.py:115-119 | a solved box that is narrowed but not emptied keeps its digit |
| Candidates.SolvedGrows | solution.py:145-150 | a narrowing without empty boxes keeps every solved box solved, so the solved count cannot fall |
| Candidates.SolvedBound | solution.py:145-150 | at most 81 boxes are solved, which bounds `reduce_puzzle`'s loop |
| Candidates.SizeShrinks | solution.py:165-168 | narrowing never raises the candidate total; shortening one box lowers it strictly, so `search` terminates |
| Candidates.UnitValuesDistinct | solution.py:160-161 | on a complete board without conflicts, the boxes of a unit hold pairwise different digits |
| Candidates.UnitsHoldEveryDigit | solution.py:160-161 | a complete, conflict-free board of digits holds each digit 1–9 exactly once in every unit |
| Propagation.AssignValue | solution.py:25-38 | a no-op write leaves board and log unchanged; otherwise only `box` changes; the log grows by one snapshot of the new board iff the value has one character |
| Propagation.ReplaceInAll | solution.py:118-119 | after the peer loop, each peer holds its old string with the digit replaced away, and every other box is unchanged |
| Propagation.EliminateStepNarrows | solution.py:116-119 | clearing one box's digit from its peers only narrows the board |
| Propagation.EliminateStepClears | solution.py:116-119 | after a box's turn, no peer holds its digit, and the boxes handled earlier stay cleared |
| Propagation.EliminateStepWitness | solution.py:116-119 | a box's turn removes only the digit of a box solved when `eliminate` started; an emptied digit removes nothing |
| Propagation.Eliminate | solution.py:109-120 | the board only narrows. A box solved at the start that keeps its digit has no peer holding that digit. No candidate disappears except the digit of a peer solved at the start |
| Propagation.Places | solution.py:130 | `dplaces` holds exactly the boxes of the unit where the digit is still possible, without repeats when the unit has none |
| Propagation.OnlyPlaceIff | solution.py:130-131 | in a unit of distinct boxes, `len(dplaces) == 1` holds exactly when one box is the only place of the digit, and then that box is `dplaces[0]` |
| Propagation.OnlyChoiceVisit | solution.py:130-132 | if exactly one box of the unit can hold the digit, that box becomes exactly that digit and nothing else changes; if no box is the only place, the board is unchanged |
| Propagation.OnlyChoiceVisitNarrows | solution.py:130-132 | a visit only narrows, and pins a box only to one of its own candidates |
| Propagation.OnlyChoice | solution.py:122-133 | the board only narrows; each box keeps its string or is pinned to one of its own candidates |
| Propagation.Group | solution.py:53-58 | defines `twins[k]` for one unit, the boxes holding k in unit order; GroupIff states its members |
| Propagation.Keys | solution.py:53-58 | defines the keys of `twins` in insertion order; KeysIff states its members and BuildTwins that the loop builds exactly it |
| Propagation.IsNaked | solution.py:61 | defines the filter of `naked_candidates`: more than one box, and as many boxes as characters; NakedGroup states that exactly these groups act |
| Propagation.LockedOut | solution.py:64-69 | defines the digits the naked groups among some keys remove from one box; LockedOutCovers and LockedOutStep state what it holds |
| Propagation.UnitStripped | solution.py:52-69 | defines the board after the naked groups among some keys have acted on a unit; NakedTwinsInUnit states that one unit's turn yields it, and StripRefines and NakedGroupsCleared state its properties |
| Propagation.GroupIff | solution.py:53-58 | `twins[k]` holds exactly the boxes of the unit whose string is k |
| Propagation.KeysIff | solution.py:53-58 | k is a key of `twins` iff some box of the unit holds the string k |
| Propagation.BuildTwins | solution.py:52-58 | the dict built has the unit's strings as keys, in first-seen order, each mapped to the boxes holding it |
| Propagation.LockedOutCovers | solution.py:61-69 | each naked group that leaves a box out contributes all its digits to what that box loses |
| Propagation.LockedOutStep | solution.py:64 | one more key adds exactly what that key's naked group removes |
| Propagation.NakedStep | solution.py:64-69 | one key's turn extends the unit's removals by that key's digits, and only if its group is naked |
| Propagation.NakedStepBox | solution.py:64-69 | for one box of the unit, one key's turn removes that key's digits exactly when its group is naked and leaves the box out |
| Propagation.NakedKey | solution.py:64-69 | one key's turn takes the board stripped by the earlier keys to the board stripped by one key more |
| Propagation.NothingLockedOut | solution.py:64 | before any key is handled, the board is unchanged |
| Propagation.ApplyNakedGroups | solution.py:64-69 | after all keys, each box of the unit has lost the digits of every naked group that leaves it out; every other box is unchanged |
| Propagation.Others | solution.py:66 | `boxes_to_eliminate` is exactly the boxes of the unit outside the group |
| Propagation.RemoveFromBox | solution.py:68-69 | the digit leaves the box if present; nothing else changes |
| Propagation.RemoveFromAll | solution.py:66-69 | the digit leaves every target box and no other box changes |
| Propagation.GroupStep | solution.py:65-69 | each digit of a naked group extends the removal from the unit's other boxes by that digit |
| Propagation.EliminateGroup | solution.py:65-69 | every digit of k leaves every box of the unit outside the group; the group's boxes and all boxes outside the unit are unchanged |
| Propagation.NakedGroup | solution.py:61-69 | a group acts iff it has more than one box and as many boxes as characters; otherwise the board is unchanged |
| Propagation.NakedTwinsInUnit | solution.py:52-69 | each box of the unit loses exactly the digits of the naked groups of the unit (as found on entry) that leave it out; boxes outside the unit are unchanged; the board only narrows |
| Propagation.StripRefines | solution.py:64-69 | removing digits from the boxes of a unit narrows the board |
| Propagation.NakedGroupsCleared | solution.py:61-69 | after the unit's turn, no digit of a naked group remains in any box of the unit outside that group |
| Propagation.NakedTwinsAtBox | solution.py:51-69 | working through every unit of a box only narrows the board, and changes no box other than the box itself and its peers |
| Propagation.NakedTwins | solution.py:40-71 | the board only narrows and keeps its 81 boxes |
| Propagation.SolvedStays | solution.py:145-150 | a box solved at the start of a pass and still solved at its end kept the same digit |
| Propagation.StallSettles | solution.py:144-150 | if a pass solves no new box and empties none, no solved digit is left in a peer |
| Propagation.ReducePuzzle | solution.py:135-153 | terminates. The board only narrows. The result is false iff some box is empty. Otherwise no solved digit repeats among peers |
| Solver.ZipPairs | solution.py:84 | defines `dict(zip(keys, chars))`; ZipPairsAt states its keys and values |
| Solver.ZipPairsAt | solution.py:84 | with distinct keys, `dict(zip(keys, chars))` maps the i-th key to the i-th character |
| Solver.ZipShape | solution.py:84 | `dict(zip(boxes, grid))` has the 81 boxes as keys, box number i holding the i-th character |
| Solver.DotsReplaced | solution.py:85-87 | replacing each `.` by `'123456789'` gives box number i the i-th character, or all nine digits for a dot |
| Solver.GridValues | solution.py:73-88 | fails exactly when the length is not 81; otherwise the board has the 81 boxes as keys, and box number i (row-major) holds the i-th character, or `'123456789'` for a `.` |
| Solver.MinUnsolved | solution.py:163 | the result is an unsolved box and its count; every other unsolved box has more candidates, or as many and a larger name |
| Solver.Search | solution.py:155-170 | terminates. The board only narrows. Contradiction iff reduce_puzzle emptied a box; otherwise the board has no conflicts. A returned board is complete, conflict-free and narrows the input. The branches work on fresh boards; the contract states of the caller's board only that it narrows the input and, unless there was a contradiction, has no conflicts |
| Solver.Solve | solution.py:172-181 | no result iff the length is not 81. A returned solution is complete and conflict-free and keeps every given digit; if the grid holds only digits and dots, the solution holds only digits |
| Solver.GivensKept | solution.py:172-181 | a solution of the decoded board keeps the given digits, and holds only digits when the grid holds only digits and dots |

## Left out

- `display` (solution.py:91-106) only prints a board and is not modelled.
- The `__main__` block (solution.py:183-195) is not modelled. It runs the
  pygame visualiser, an external module outside this model, and catches its
  exceptions.
- The snapshots in the assignment log are never read back. The methods above
  `AssignValue` state only that the log grows by appending
  (`old(log.assignments) <= log.assignments`), not which snapshots are added.
- `search` writes the branch digit straight into the copied board, without
  `assign_value`, so that write is not logged. The model follows the code here.
- Solver.Search: does not state completeness, i.e. that a solution is found
  whenever one exists. It states only soundness of the returned board and
  termination.
- Solver.Search: does not state that the caller's board ends exactly as
  reduce_puzzle left it. The search loop keeps that board unchanged as an
  invariant, but the contract exposes only that the board narrows and, unless
  there was a contradiction, has no conflicts.
- Solver.Solve: input characters other than `1`–`9` and `.` are not excluded by
  a precondition, because `grid_values` accepts any character. The model states
  the digits-only conclusion under the hypothesis that the grid holds only
  digits and dots.
- Solver.MinUnsolved: requires some unsolved box. Python's `min` raises on an
  empty generator, and `search` reaches that line only when some box is
  unsolved and none is empty.
- Propagation.NakedTwins: states only that the board narrows. The effect of
  each unit's turn is stated by `NakedTwinsInUnit` and `NakedGroupsCleared`, on
  the board that the turn sees. Earlier units may already have narrowed it.
- Propagation.Eliminate: the model picks the peers (a set in Python) and the
  solved boxes (a list in Python) in an arbitrary order. Its contracts cover
  every order, including Python's, but do not say which box is emptied when
  two solved peers share a digit.
- Propagation.ReducePuzzle: does not identify the final pass or state that it
  solved no new box. The rules are specified only up to narrowing, so a board
  that is already stable would satisfy any such statement. The contract states
  what the stall implies instead: no box is empty and no solved digit repeats
  among peers (`NoConflicts`).
- The global `assignments` list is modelled as an object passed to each
  method, not as module state.

=== FILE: candidates.dfy ===
/** Candidate strings and boards. A board maps every box name to the string
    of digits still possible there; Python keeps these as `str` values and
    edits them with `replace`, so the model keeps strings too. */
module Candidates {
  import opened Topology

  /** Python's `values` dictionary. */
  type Values = map<string, string>

  // ---------------------------------------------------------------------
  // Editing one candidate string

  /** `s.replace(c, '')` for a one-character c: every occurrence of c removed. */
  function RemoveChar(s: string, c: char): (r: string)
    ensures |r| <= |s|
    ensures forall x :: x in r <==> x in s && x != c
    ensures c !in s ==> r == s
    ensures c in s ==> |r| < |s|
  {
    if s == [] then []
    else (if s[0] == c then [] else [s[0]]) + RemoveChar(s[1..], c)
  }

  /** `s.replace(d, '')` where d has at most one character; Python returns s
      itself when d is the empty string. */
  function Replace(s: string, d: string): (r: string)
    requires |d| <= 1
    ensures |r| <= |s|
    ensures forall x :: x in r <==> x in s && x !in d
  {
    if d == "" then s else RemoveChar(s, d[0])
  }

  /** s with every character of ds removed, order kept. */
  function Strip(s: string, ds: set<char>): (r: string)
  {
    if s == [] then []
    else (if s[0] in ds then [] else [s[0]]) + Strip(s[1..], ds)
  }

  /** A strip keeps exactly the characters outside ds and never lengthens. */
  lemma {:induction false} StripIff(s: string, ds: set<char>)
    ensures |Strip(s, ds)| <= |s|
    ensures forall x :: x in Strip(s, ds) <==> x in s && x !in ds
  {
    if s != [] {
      StripIff(s[1..], ds);
      assert forall x :: x in s <==> x == s[0] || x in s[1..];
    }
  }

  /** Removing one more character after a strip is a strip by one more character. */
  lemma {:induction false} StripThenRemove(s: string, ds: set<char>, c: char)
    ensures RemoveChar(Strip(s, ds), c) == Strip(s, ds + {c})
  {
    if s != [] {
      StripThenRemove(s[1..], ds, c);
      var head := if s[0] in ds then [] else [s[0]];
      assert Strip(s, ds) == head + Strip(s[1..], ds);
      RemoveConcat(head, Strip(s[1..], ds), c);
    }
  }

  lemma {:induction false} RemoveConcat(a: string, b: string, c: char)
    ensures RemoveChar(a + b, c) == RemoveChar(a, c) + RemoveChar(b, c)
  {
    if a == [] {
      assert a + b == b;
    } else {
      var head := if a[0] == c then [] else [a[0]];
      calc {
        RemoveChar(a + b, c);
        { assert (a + b)[0] == a[0] && (a + b)[1..] == a[1..] + b; }
        head + RemoveChar(a[1..] + b, c);
        { RemoveConcat(a[1..], b, c); }
        head + (RemoveChar(a[1..], c) + RemoveChar(b, c));
        (head + RemoveChar(a[1..], c)) + RemoveChar(b, c);
      }
    }
  }

  /** Stripping nothing leaves the string as it is. */
  lemma {:induction false} StripNothing(s: string)
    ensures Strip(s, {}) == s
  {
    if s != [] {
      StripNothing(s[1..]);
    }
  }

  /** Two strips in a row are one strip by both sets. */
  lemma {:induction false} StripStrip(s: string, a: set<char>, b: set<char>)
    ensures Strip(Strip(s, a), b) == Strip(s, a + b)
  {
    if s != [] {
      StripStrip(s[1..], a, b);
      var head := if s[0] in a then [] else [s[0]];
      assert Strip(s, a) == head + Strip(s[1..], a);
      StripConcat(head, Strip(s[1..], a), b);
    }
  }

  lemma {:induction false} StripConcat(x: string, y: string, ds: set<char>)
    ensures Strip(x + y, ds) == Strip(x, ds) + Strip(y, ds)
  {
    if x == [] {
      assert x + y == y;
    } else {
      assert (x + y)[0] == x[0] && (x + y)[1..] == x[1..] + y;
      StripConcat(x[1..], y, ds);
    }
  }

  // ---------------------------------------------------------------------
  // Boards

  /** The keys are exactly the 81 boxes, as for every board grid_values builds. */
  ghost predicate IsGrid(v: Values) {
    forall x :: x in v <==> IsBox(x)
  }

  /** a keeps only candidates of b and is no longer than b. */
  predicate Narrows(a: string, b: string) {
    |a| <= |b| && forall x :: x in a ==> x in b
  }

  /** Board w is board v with candidates only taken away. */
  ghost predicate Refines(w: Values, v: Values) {
    (forall x :: x in w <==> x in v) &&
    forall x :: x in v ==> Narrows(w[x], v[x])
  }

  /** Refinement is transitive: narrowing twice is narrowing. */
  lemma RefinesTransitive(a: Values, b: Values, c: Values)
    requires Refines(a, b) && Refines(b, c)
    ensures Refines(a, c)
  {
  }

  /** The boxes holding exactly one candidate. */
  function Solved(v: Values): (r: set<string>) {
    set x | x in v && |v[x]| == 1
  }

  /** Some box has no candidate left: a contradiction. */
  ghost predicate HasEmpty(v: Values) {
    exists x :: x in v && v[x] == ""
  }

  /** Every box holds exactly one candidate: the completeness test of
      search (solution.py:160), on a board whose keys are the boxes. */
  predicate AllSolved(v: Values) {
    forall x :: x in v ==> |v[x]| == 1
  }

  /** No solved box shares its digit with one of its peers. */
  ghost predicate NoConflicts(v: Values) {
    forall x, p :: x in v && |v[x]| == 1 && p in Peers(x) && p in v ==> v[x][0] !in v[p]
  }

  /** Every candidate anywhere on the board is one of the digits 1-9. */
  ghost predicate OnlyDigits(v: Values) {
    forall x, c :: x in v && c in v[x] ==> c in Cols
  }

  /** A one-candidate string that is narrowed but not emptied is unchanged. */
  lemma SingleStays(a: string, b: string)
    requires Narrows(a, b) && |b| == 1 && a != ""
    ensures a == b
  {
    assert a[0] in b;
  }

  lemma {:induction false} SubsetCard<T>(a: set<T>, b: set<T>)
    requires a <= b
    ensures |a| <= |b|
  {
    if a != {} {
      var y :| y in a;
      SubsetCard(a - {y}, b - {y});
    }
  }

  /** A refinement without empty boxes keeps every solved box solved, so the
      solved count never drops. */
  lemma SolvedGrows(w: Values, v: Values)
    requires Refines(w, v) && !HasEmpty(w)
    ensures Solved(v) <= Solved(w)
    ensures |Solved(v)| <= |Solved(w)|
  {
    forall x | x in Solved(v) ensures x in Solved(w) {
      assert w[x] != "";
    }
    SubsetCard(Solved(v), Solved(w));
  }

  /** A subset as large as its superset is the whole superset. */
  lemma SubsetSameCard<T>(a: set<T>, b: set<T>)
    requires a <= b && |a| == |b|
    ensures a == b
  {
    if a != b {
      assert !(b <= a);
      var y :| y in b && y !in a;
      SubsetCard(a, b - {y});
    }
  }

  /** At most 81 boxes can be solved. */
  lemma SolvedBound(v: Values)
    requires IsGrid(v)
    ensures |Solved(v)| <= 81
  {
    BoxesShape();
    var all := set x | x in Boxes;
    forall x | x in Solved(v) ensures x in all {
      BoxMember(x);
    }
    SubsetCard(Solved(v), all);
    DistinctCard(Boxes);
  }

  lemma {:induction false} DistinctCard<T>(s: seq<T>)
    requires Distinct(s)
    ensures |set x | x in s| == |s|
  {
    if s != [] {
      DistinctCard(s[1..]);
      assert (set x | x in s) == {s[0]} + (set x | x in s[1..]);
      assert s[0] !in s[1..];
    }
  }

  // ---------------------------------------------------------------------
  // Size: the total number of candidates, the measure search descends

  function SizeOver(v: Values, xs: seq<string>): (r: nat)
    requires forall x :: x in xs ==> x in v
  {
    if xs == [] then 0 else |v[xs[0]]| + SizeOver(v, xs[1..])
  }

  /** The number of candidates left on the whole board. */
  ghost function Size(v: Values): (r: nat)
    requires IsGrid(v)
  {
    GridHasBoxes(v);
    SizeOver(v, Boxes)
  }

  /** A grid has an entry for every box. */
  lemma GridHasBoxes(v: Values)
    requires IsGrid(v)
    ensures forall x :: x in Boxes ==> x in v
  {
    forall x | x in Boxes ensures x in v {
      BoxMember(x);
    }
  }

  lemma {:induction false} SizeOverShrinks(w: Values, v: Values, xs: seq<string>, y: string)
    requires Refines(w, v) && forall x :: x in xs ==> x in v
    ensures SizeOver(w, xs) <= SizeOver(v, xs)
    ensures y in xs && |w[y]| < |v[y]| ==> SizeOver(w, xs) < SizeOver(v, xs)
  {
    if xs != [] {
      SizeOverShrinks(w, v, xs[1..], y);
    }
  }

  /** Narrowing never adds candidates; shortening one box strictly lowers the size. */
  lemma SizeShrinks(w: Values, v: Values, y: string)
    requires IsGrid(v) && Refines(w, v)
    ensures IsGrid(w) && Size(w) <= Size(v)
    ensures y in v && |w[y]| < |v[y]| ==> Size(w) < Size(v)
  {
    GridHasBoxes(v);
    BoxMember(y);
    SizeOverShrinks(w, v, Boxes, y);
  }

  // ---------------------------------------------------------------------
  // A complete board that passed elimination is a solution

  /** Nine different digits include every digit. */
  lemma NineDigits(ds: string, d: char)
    requires |ds| == 9 && Distinct(ds) && d in Cols
    requires forall c :: c in ds ==> c in Cols
    ensures d in ds
  {
    RowsAndColsAscending();
    DistinctCard(ds);
    DistinctCard(Cols);
    var have, all := set c | c in ds, set c | c in Cols;
    if d !in have {
      SubsetCard(have, all - {d});
      assert false;
    }
  }

  /** On a complete board without conflicts, the boxes of a unit hold
      pairwise different values. */
  lemma UnitValuesDistinct(v: Values, u: seq<string>)
    requires IsGrid(v) && AllSolved(v) && NoConflicts(v) && u in UnitList()
    ensures forall x :: x in u ==> x in v && |v[x]| == 1
    ensures forall i, j :: 0 <= i < j < |u| ==> v[u[i]][0] != v[u[j]][0]
  {
    UnitShape(u);
    forall i, j | 0 <= i < j < |u| ensures v[u[i]][0] != v[u[j]][0] {
      UnitMatesArePeers(u, u[i], u[j]);
    }
  }

  /** On a complete board without conflicts whose candidates are digits, every
      unit holds nine different digits, hence each of 1-9 exactly once. */
  lemma UnitsHoldEveryDigit(v: Values, u: seq<string>, d: char)
    requires IsGrid(v) && AllSolved(v) && NoConflicts(v) && OnlyDigits(v)
    requires u in UnitList() && d in Cols
    ensures forall x :: x in u ==> x in v && |v[x]| == 1 && v[x][0] in Cols
    ensures forall i, j :: 0 <= i < j < |u| ==> v[u[i]] != v[u[j]]
    ensures exists x :: x in u && v[x] == [d]
  {
    UnitShape(u);
    UnitValuesDistinct(v, u);
    var ds := seq(9, i requires 0 <= i < 9 => v[u[i]][0]);
    assert Distinct(ds);
    forall c | c in ds ensures c in Cols {
      var i :| 0 <= i < 9 && ds[i] == c;
      assert c in v[u[i]];
    }
    NineDigits(ds, d);
    var i :| 0 <= i < 9 && ds[i] == d;
    assert v[u[i]] == [d];
  }
}

=== FILE: propagation.dfy ===
/** The propagation engine: the logged write primitive, the three elimination
    rules and the loop that applies them until the solved count stalls. Each
    rule edits the board in place, one box at a time, through AssignValue. */
module Propagation {
  import opened Topology
  import opened Candidates

  /** Python's `values` dictionary, shared by reference between the rules. */
  class Board {
    var values: Values

    constructor (values: Values)
      ensures this.values == values
    {
      this.values := values;
    }
  }

  /** The module-level `assignments` list: a snapshot of the whole board after
      every write that leaves a box with a single candidate. */
  class AssignmentLog {
    var assignments: seq<Values>

    constructor ()
      ensures assignments == []
    {
      assignments := [];
    }
  }

  /** The single write primitive. A write that changes nothing is skipped;
      otherwise the box gets the value, and a copy of the board is logged
      exactly when the new value has one candidate. */
  method AssignValue(board: Board, log: AssignmentLog, box: string, value: string)
    requires box in board.values
    modifies board, log
    ensures board.values == old(board.values)[box := value]
    ensures old(board.values[box]) == value ==>
      board.values == old(board.values) && log.assignments == old(log.assignments)
    ensures old(board.values[box]) != value ==>
      log.assignments == old(log.assignments) + (if |value| == 1 then [board.values] else [])
  {
    if board.values[box] == value {
      assert board.values[box := value] == board.values;
      return;
    }
    board.values := board.values[box := value];
    if |value| == 1 {
      log.assignments := log.assignments + [board.values];
    }
  }

  // ---------------------------------------------------------------------
  // eliminate

  /** Every box of bs that was solved in w and still holds its digit in v
      has that digit removed from all its peers in v. */
  ghost predicate ClearedBy(w: Values, v: Values, bs: set<string>) {
    forall b, p :: b in bs && b in w && |w[b]| == 1 && b in v && v[b] == w[b] && p in Peers(b) && p in v ==>
      w[b][0] !in v[p]
  }

  /** ClearedBy for every box of the board. */
  ghost predicate PeersCleared(w: Values, v: Values) {
    forall b, p :: b in w && |w[b]| == 1 && b in v && v[b] == w[b] && p in Peers(b) && p in v ==>
      w[b][0] !in v[p]
  }

  /** The digits of the boxes solved in w that have x among their peers. */
  ghost function SolvedPeerDigits(w: Values, x: string): (r: set<char>) {
    set b | b in w && x in Peers(b) && |w[b]| == 1 :: w[b][0]
  }

  /** Going from w to v removed no candidate other than the digit of a solved
      peer. */
  ghost predicate OnlyPeerDigitsRemoved(w: Values, v: Values) {
    forall x, c :: x in w && x in v && c in w[x] && c !in SolvedPeerDigits(w, x) ==> c in v[x]
  }

  /** The inner loop of eliminate: `value.replace(digit, '')` written into
      each box of targets, in whatever order the set yields them. */
  method ReplaceInAll(board: Board, log: AssignmentLog, targets: set<string>, digit: string)
    requires IsGrid(board.values) && |digit| <= 1
    requires forall x :: x in targets ==> IsBox(x)
    modifies board, log
    ensures IsGrid(board.values)
    ensures forall x :: x in board.values ==>
      board.values[x] == if x in targets then Replace(old(board.values[x]), digit) else old(board.values[x])
    ensures old(log.assignments) <= log.assignments
  {
    var rest := targets;
    while rest != {}
      invariant rest <= targets
      invariant IsGrid(board.values)
      invariant forall x :: x in board.values ==>
        board.values[x] == if x in targets && x !in rest then Replace(old(board.values[x]), digit)
                           else old(board.values[x])
      invariant old(log.assignments) <= log.assignments
      decreases rest
    {
      var peer :| peer in rest;
      AssignValue(board, log, peer, Replace(board.values[peer], digit));
      rest := rest - {peer};
    }
  }

  /** One step of eliminate only narrows boxes. */
  lemma EliminateStepNarrows(v: Values, w: Values, box: string)
    requires box in v && |v[box]| <= 1
    requires forall x :: x in v <==> x in w
    requires forall x :: x in w ==>
      w[x] == if x in Peers(box) then Replace(v[x], v[box]) else v[x]
    ensures Refines(w, v)
  {
    forall x | x in v ensures Narrows(w[x], v[x]) {
    }
  }

  /** One step of eliminate, for box, extends ClearedBy from the boxes
      handled before to box as well. */
  lemma EliminateStepClears(v0: Values, v: Values, w: Values, done: set<string>, box: string)
    requires Refines(v, v0) && Refines(w, v) && box in v0 && |v0[box]| == 1
    requires forall x :: x in w ==>
      w[x] == if x in Peers(box) then Replace(v[x], v[box]) else v[x]
    requires ClearedBy(v0, v, done)
    ensures ClearedBy(v0, w, done + {box})
  {
    PeerIff(box, box);
    forall b, p | b in done + {box} && b in v0 && |v0[b]| == 1 && b in w && w[b] == v0[b] && p in Peers(b) && p in w
      ensures v0[b][0] !in w[p]
    {
      SingleStays(v[b], v0[b]);
      if b != box {
        assert b in done;
      }
    }
  }

  /** Every candidate one step of eliminate removes is the digit of a box
      solved at the start. */
  lemma EliminateStepWitness(v0: Values, v: Values, w: Values, box: string)
    requires Refines(v, v0) && Refines(w, v) && box in v0 && |v0[box]| == 1
    requires forall x :: x in w ==>
      w[x] == if x in Peers(box) then Replace(v[x], v[box]) else v[x]
    requires OnlyPeerDigitsRemoved(v0, v)
    ensures OnlyPeerDigitsRemoved(v0, w)
  {
    forall x, c | x in v0 && x in w && c in v0[x] && c !in SolvedPeerDigits(v0, x)
      ensures c in w[x]
    {
      assert c in v[x];
      if x in Peers(box) && v[box] != "" {
        SingleStays(v[box], v0[box]);
        assert c != v0[box][0];
      }
    }
  }

  /** Python's `eliminate`: for each box solved at the start (visited here in
      any order), its current value is replaced away in all its peers.
      Afterwards, a box that was solved and still holds its digit has no peer
      holding that digit; every box only narrowed, and no candidate
      disappeared other than the digit of a solved peer. */
  method Eliminate(board: Board, log: AssignmentLog)
    requires IsGrid(board.values)
    modifies board, log
    ensures IsGrid(board.values) && Refines(board.values, old(board.values))
    ensures PeersCleared(old(board.values), board.values)
    ensures OnlyPeerDigitsRemoved(old(board.values), board.values)
    ensures old(log.assignments) <= log.assignments
  {
    ghost var v0 := board.values;
    var solvedValues := Solved(board.values);
    var rest := solvedValues;
    while rest != {}
      invariant rest <= solvedValues
      invariant IsGrid(board.values) && Refines(board.values, v0)
      invariant ClearedBy(v0, board.values, solvedValues - rest)
      invariant OnlyPeerDigitsRemoved(v0, board.values)
      invariant old(log.assignments) <= log.assignments
      decreases rest
    {
      var box :| box in rest;
      ghost var v := board.values;
      PeersAreBoxes(box);
      ReplaceInAll(board, log, Peers(box), board.values[box]);
      EliminateStepNarrows(v, board.values, box);
      RefinesTransitive(board.values, v, v0);
      EliminateStepClears(v0, v, board.values, solvedValues - rest, box);
      EliminateStepWitness(v0, v, board.values, box);
      assert solvedValues - (rest - {box}) == (solvedValues - rest) + {box};
      rest := rest - {box};
    }
  }

  // ---------------------------------------------------------------------
  // only_choice

  /** The boxes of the unit that can still hold digit, in unit order
      (`dplaces`, solution.py:130). */
  function Places(v: Values, unit: seq<string>, digit: char): (r: seq<string>)
    requires forall x :: x in unit ==> x in v
    ensures forall x :: x in r <==> x in unit && digit in v[x]
    ensures Distinct(unit) ==> Distinct(r)
  {
    if unit == [] then []
    else (if digit in v[unit[0]] then [unit[0]] else []) + Places(v, unit[1..], digit)
  }

  /** Every box either kept its candidates or was pinned to one of them. */
  ghost predicate KeptOrPinned(w: Values, v: Values) {
    forall x :: x in v ==> x in w && (v[x] == w[x] || (|v[x]| == 1 && v[x][0] in w[x]))
  }

  /** One turn of only_choice's inner loop: when exactly one box of the unit
      can still hold digit, that box becomes exactly that digit; otherwise
      nothing changes. */
  method OnlyChoiceVisit(board: Board, log: AssignmentLog, unit: seq<string>, digit: char)
    requires IsGrid(board.values) && Distinct(unit) && forall x :: x in unit ==> IsBox(x)
    modifies board, log
    ensures IsGrid(board.values)
    ensures var places := Places(old(board.values), unit, digit);
      board.values == if |places| == 1 then old(board.values)[places[0] := [digit]] else old(board.values)
    ensures forall x :: OnlyPlace(old(board.values), unit, digit, x) ==>
      board.values == old(board.values)[x := [digit]]
    ensures (forall x :: !OnlyPlace(old(board.values), unit, digit, x)) ==> board.values == old(board.values)
    ensures old(log.assignments) <= log.assignments
  {
    var dplaces := Places(board.values, unit, digit);
    OnlyPlaceIff(board.values, unit, digit);
    if |dplaces| == 1 {
      assert OnlyPlace(board.values, unit, digit, dplaces[0]);
      AssignValue(board, log, dplaces[0], [digit]);
    }
  }

  /** x is the one box of the unit where digit is still possible. */
  ghost predicate OnlyPlace(v: Values, unit: seq<string>, digit: char, x: string)
    requires forall y :: y in unit ==> y in v
  {
    x in unit && digit in v[x] && forall y :: y in unit && digit in v[y] ==> y == x
  }

  /** A sequence without repeats that has two entries has two different ones. */
  lemma DistinctHeads<T>(s: seq<T>)
    requires Distinct(s)
    ensures |s| >= 2 ==> s[0] in s && s[1] in s && s[0] != s[1]
  {
  }

  /** With distinct boxes, the places of a digit are a single box exactly
      when that box is its only place. */
  lemma OnlyPlaceIff(v: Values, unit: seq<string>, digit: char)
    requires Distinct(unit) && forall y :: y in unit ==> y in v
    ensures forall x :: OnlyPlace(v, unit, digit, x) <==>
      |Places(v, unit, digit)| == 1 && Places(v, unit, digit)[0] == x
  {
    var places := Places(v, unit, digit);
    forall x ensures OnlyPlace(v, unit, digit, x) <==> |places| == 1 && places[0] == x {
      if OnlyPlace(v, unit, digit, x) {
        assert x in places;
        DistinctHeads(places);
      }
      if |places| == 1 && places[0] == x {
        assert places[0] in places;
      }
    }
  }

  /** A visit of only_choice narrows the board and pins only to a candidate. */
  lemma OnlyChoiceVisitNarrows(v: Values, w: Values, unit: seq<string>, digit: char)
    requires IsGrid(v) && forall x :: x in unit ==> IsBox(x)
    requires var places := Places(v, unit, digit);
      w == if |places| == 1 then v[places[0] := [digit]] else v
    ensures Refines(w, v) && KeptOrPinned(v, w)
  {
    var places := Places(v, unit, digit);
    if |places| == 1 {
      assert places[0] in places;
    }
  }

  /** Python's `only_choice`: every unit and every digit in turn; a digit with
      a single place in the unit is written there. The board only narrows,
      and each box either keeps its candidates or is pinned to one of them. */
  method OnlyChoice(board: Board, log: AssignmentLog)
    requires IsGrid(board.values)
    modifies board, log
    ensures IsGrid(board.values) && Refines(board.values, old(board.values))
    ensures KeptOrPinned(old(board.values), board.values)
    ensures old(log.assignments) <= log.assignments
  {
    ghost var v0 := board.values;
    var unitlist := UnitList();
    for n := 0 to |unitlist|
      invariant IsGrid(board.values) && Refines(board.values, v0)
      invariant KeptOrPinned(v0, board.values)
      invariant old(log.assignments) <= log.assignments
    {
      var unit := unitlist[n];
      UnitShape(unit);
      for k := 0 to |Cols|
        invariant IsGrid(board.values) && Refines(board.values, v0)
        invariant KeptOrPinned(v0, board.values)
        invariant old(log.assignments) <= log.assignments
      {
        ghost var v := board.values;
        OnlyChoiceVisit(board, log, unit, Cols[k]);
        OnlyChoiceVisitNarrows(v, board.values, unit, Cols[k]);
        RefinesTransitive(board.values, v, v0);
      }
    }
  }

  // ---------------------------------------------------------------------
  // naked_twins

  /** Python's `twins[k]` for one unit: the boxes of us whose candidate string
      is k, in the order of us. */
  function Group(v: Values, us: seq<string>, k: string): (r: seq<string>)
    requires forall x :: x in us ==> x in v
  {
    if us == [] then []
    else
      var last := us[|us| - 1];
      Group(v, us[..|us| - 1], k) + (if v[last] == k then [last] else [])
  }

  /** A group holds exactly the boxes of the unit whose string is k. */
  lemma {:induction false} GroupIff(v: Values, us: seq<string>, k: string)
    requires forall x :: x in us ==> x in v
    ensures forall x :: x in Group(v, us, k) <==> x in us && v[x] == k
  {
    if us != [] {
      var last := us[|us| - 1];
      assert forall x :: x in us <==> x in us[..|us| - 1] || x == last;
      GroupIff(v, us[..|us| - 1], k);
    }
  }

  /** The keys of Python's `twins` for one unit: the distinct candidate strings
      of its boxes, in order of first appearance. */
  function Keys(v: Values, us: seq<string>): (r: seq<string>)
    requires forall x :: x in us ==> x in v
  {
    if us == [] then []
    else
      var last := us[|us| - 1];
      var prev := Keys(v, us[..|us| - 1]);
      if v[last] in prev then prev else prev + [v[last]]
  }

  /** A string is a key exactly when some box of the unit holds it, and then
      its group is not empty. */
  lemma {:induction false} KeysIff(v: Values, us: seq<string>)
    requires forall x :: x in us ==> x in v
    ensures forall k :: k in Keys(v, us) <==> Group(v, us, k) != []
  {
    if us != [] {
      var last := us[|us| - 1];
      KeysIff(v, us[..|us| - 1]);
      forall k ensures Group(v, us, k) != [] <==> Group(v, us[..|us| - 1], k) != [] || v[last] == k {
      }
    }
  }

  /** A naked group: several boxes of the unit share one candidate string, and
      there are exactly as many of them as candidates in the string. */
  predicate IsNaked(v: Values, us: seq<string>, k: string)
    requires forall x :: x in us ==> x in v
  {
    |Group(v, us, k)| > 1 && |k| == |Group(v, us, k)|
  }

  function CharsOf(k: string): (r: set<char>) {
    set c | c in k
  }

  lemma CharsOfSnoc(k: string, c: char)
    ensures CharsOf(k + [c]) == CharsOf(k) + {c}
  {
  }

  /** The candidates that the naked groups among ks, taken in order, remove
      from box x of the unit us. */
  function LockedOut(v: Values, us: seq<string>, ks: seq<string>, x: string): (r: set<char>)
    requires forall y :: y in us ==> y in v
  {
    if ks == [] then {}
    else
      var k := ks[|ks| - 1];
      LockedOut(v, us, ks[..|ks| - 1], x) +
        (if IsNaked(v, us, k) && x !in Group(v, us, k) then CharsOf(k) else {})
  }

  /** Every naked group among ks that leaves x out contributes all its digits. */
  lemma {:induction false} LockedOutCovers(v: Values, us: seq<string>, ks: seq<string>, x: string)
    requires forall y :: y in us ==> y in v
    ensures forall k, c :: k in ks && IsNaked(v, us, k) && x !in Group(v, us, k) && c in k ==>
      c in LockedOut(v, us, ks, x)
  {
    if ks != [] {
      var k := ks[|ks| - 1];
      assert forall j :: j in ks <==> j in ks[..|ks| - 1] || j == k;
      LockedOutCovers(v, us, ks[..|ks| - 1], x);
    }
  }

  /** LockedOut over one more key adds what that key's group removes. */
  lemma LockedOutStep(v: Values, us: seq<string>, ks: seq<string>, j: nat, x: string)
    requires forall y :: y in us ==> y in v
    requires j < |ks|
    ensures LockedOut(v, us, ks[..j + 1], x) ==
      LockedOut(v, us, ks[..j], x) + (if IsNaked(v, us, ks[j]) && x !in Group(v, us, ks[j]) then CharsOf(ks[j]) else {})
  {
    assert ks[..j + 1][..j] == ks[..j];
  }

  /** The board v0 after the naked groups among ks have done their work on
      unit: each box of the unit loses what LockedOut says, the rest stay. */
  function UnitStripped(v0: Values, unit: seq<string>, ks: seq<string>): (r: Values)
    requires forall y :: y in unit ==> y in v0
  {
    map x | x in v0 :: if x in unit then Strip(v0[x], LockedOut(v0, unit, ks, x)) else v0[x]
  }

  /** One key of naked_twins' second loop: if its group is naked, its digits
      leave the unit's other boxes, which extends LockedOut by that key. */
  lemma NakedStep(v0: Values, v: Values, w: Values, unit: seq<string>, ks: seq<string>, j: nat,
                  group: seq<string>, naked: bool)
    requires forall y :: y in unit ==> y in v0
    requires j < |ks|
    requires group == Group(v0, unit, ks[j])
    requires naked <==> |group| > 1 && |ks[j]| == |group|
    requires v == UnitStripped(v0, unit, ks[..j])
    requires forall x :: x in w <==> x in v
    requires forall x :: x in w ==>
      w[x] == if naked && x in unit && x !in group then Strip(v[x], CharsOf(ks[j])) else v[x]
    ensures w == UnitStripped(v0, unit, ks[..j + 1])
  {
    forall x | x in w && x in unit
      ensures w[x] == Strip(v0[x], LockedOut(v0, unit, ks[..j + 1], x))
    {
      NakedStepBox(v0, unit, ks, j, group, naked, x, w[x]);
    }
  }

  /** NakedStep for one box x of the unit, whose new string is wx. */
  lemma NakedStepBox(v0: Values, unit: seq<string>, ks: seq<string>, j: nat,
                     group: seq<string>, naked: bool, x: string, wx: string)
    requires forall y :: y in unit ==> y in v0
    requires j < |ks| && x in unit
    requires group == Group(v0, unit, ks[j])
    requires naked <==> |group| > 1 && |ks[j]| == |group|
    requires wx == if naked && x !in group then Strip(Strip(v0[x], LockedOut(v0, unit, ks[..j], x)), CharsOf(ks[j]))
                   else Strip(v0[x], LockedOut(v0, unit, ks[..j], x))
    ensures wx == Strip(v0[x], LockedOut(v0, unit, ks[..j + 1], x))
  {
    var k := ks[j];
    var before := LockedOut(v0, unit, ks[..j], x);
    LockedOutStep(v0, unit, ks, j, x);
    assert naked == IsNaked(v0, unit, k);
    if naked && x !in group {
      StripStrip(v0[x], before, CharsOf(k));
      assert LockedOut(v0, unit, ks[..j + 1], x) == before + CharsOf(k);
    } else {
      assert LockedOut(v0, unit, ks[..j + 1], x) == before;
    }
  }

  /** The boxes of the unit outside the group, in unit order
      (`boxes_to_eliminate`, solution.py:66). */
  function Others(unit: seq<string>, group: seq<string>): (r: seq<string>)
    ensures forall x :: x in r <==> x in unit && x !in group
  {
    if unit == [] then []
    else (if unit[0] in group then [] else [unit[0]]) + Others(unit[1..], group)
  }

  /** One turn of naked_twins' innermost loop: c leaves box b if b holds it. */
  method RemoveFromBox(board: Board, log: AssignmentLog, b: string, c: char)
    requires b in board.values
    modifies board, log
    ensures board.values == old(board.values)[b := RemoveChar(old(board.values[b]), c)]
    ensures old(log.assignments) <= log.assignments
  {
    if c in board.values[b] {
      AssignValue(board, log, b, RemoveChar(board.values[b], c));
    } else {
      assert board.values[b := RemoveChar(board.values[b], c)] == board.values;
    }
  }

  /** The innermost loop of naked_twins: c removed from every target box that
      still holds it. The model visits the targets in any order. */
  method RemoveFromAll(board: Board, log: AssignmentLog, targets: set<string>, c: char)
    requires IsGrid(board.values) && forall x :: x in targets ==> IsBox(x)
    modifies board, log
    ensures IsGrid(board.values)
    ensures forall x :: x in board.values ==>
      board.values[x] == if x in targets then RemoveChar(old(board.values[x]), c) else old(board.values[x])
    ensures old(log.assignments) <= log.assignments
  {
    var rest := targets;
    while rest != {}
      invariant rest <= targets
      invariant IsGrid(board.values)
      invariant forall x :: x in board.values ==>
        board.values[x] == if x in targets && x !in rest then RemoveChar(old(board.values[x]), c)
                           else old(board.values[x])
      invariant old(log.assignments) <= log.assignments
      decreases rest
    {
      var b :| b in rest;
      RemoveFromBox(board, log, b, c);
      rest := rest - {b};
    }
  }

  /** One digit of a naked group removed from the unit's other boxes extends
      the strip by that digit. */
  lemma GroupStep(v0: Values, v: Values, w: Values, unit: seq<string>, group: seq<string>, k: string, j: nat)
    requires j < |k|
    requires forall x :: x in v <==> x in v0
    requires forall x :: x in v ==>
      v[x] == if x in unit && x !in group then Strip(v0[x], CharsOf(k[..j])) else v0[x]
    requires forall x :: x in w <==> x in v
    requires forall x :: x in w ==>
      w[x] == if x in (set y | y in Others(unit, group)) then RemoveChar(v[x], k[j]) else v[x]
    ensures forall x :: x in w ==>
      w[x] == if x in unit && x !in group then Strip(v0[x], CharsOf(k[..j + 1])) else v0[x]
  {
    assert k[..j + 1] == k[..j] + [k[j]];
    CharsOfSnoc(k[..j], k[j]);
    forall x | x in w && x in unit && x !in group
      ensures w[x] == Strip(v0[x], CharsOf(k[..j + 1]))
    {
      StripThenRemove(v0[x], CharsOf(k[..j]), k[j]);
    }
  }

  /** One naked group at work: every digit of k leaves every box of the unit
      outside the group. The group's own boxes are not written. */
  method EliminateGroup(board: Board, log: AssignmentLog, unit: seq<string>, k: string, group: seq<string>)
    requires IsGrid(board.values) && forall x :: x in unit ==> IsBox(x)
    modifies board, log
    ensures IsGrid(board.values)
    ensures forall x :: x in board.values ==>
      board.values[x] == if x in unit && x !in group then Strip(old(board.values[x]), CharsOf(k))
                         else old(board.values[x])
    ensures old(log.assignments) <= log.assignments
  {
    ghost var v0 := board.values;
    forall x | x in v0 ensures Strip(v0[x], CharsOf(k[..0])) == v0[x] {
      assert CharsOf(k[..0]) == {};
      StripNothing(v0[x]);
    }
    for j := 0 to |k|
      invariant IsGrid(board.values)
      invariant forall x :: x in board.values ==>
        board.values[x] == if x in unit && x !in group then Strip(v0[x], CharsOf(k[..j])) else v0[x]
      invariant old(log.assignments) <= log.assignments
    {
      var value := k[j];
      var boxesToEliminate := Others(unit, group);
      ghost var v := board.values;
      RemoveFromAll(board, log, (set x | x in boxesToEliminate), value);
      GroupStep(v0, v, board.values, unit, group, k, j);
    }
    assert k[..|k|] == k;
  }

  /** The test and body of naked_twins' second loop for one key k whose
      boxes are group: only a naked group is at work. */
  method NakedGroup(board: Board, log: AssignmentLog, unit: seq<string>, k: string, group: seq<string>)
    returns (naked: bool)
    requires IsGrid(board.values) && forall x :: x in unit ==> IsBox(x)
    modifies board, log
    ensures naked <==> |group| > 1 && |k| == |group|
    ensures IsGrid(board.values)
    ensures forall x :: x in board.values ==>
      board.values[x] == if naked && x in unit && x !in group then Strip(old(board.values[x]), CharsOf(k))
                         else old(board.values[x])
    ensures old(log.assignments) <= log.assignments
  {
    naked := |group| > 1 && |k| == |group|;
    if naked {
      EliminateGroup(board, log, unit, k, group);
    }
  }

  /** The first loop of naked_twins for one unit: `twins` maps each candidate
      string of the unit to the boxes holding it; order lists its keys in
      insertion order. */
  method BuildTwins(v: Values, unit: seq<string>) returns (twins: map<string, seq<string>>, order: seq<string>)
    requires forall x :: x in unit ==> x in v
    ensures order == Keys(v, unit)
    ensures forall k :: k in twins <==> k in order
    ensures forall k :: k in twins ==> twins[k] == Group(v, unit, k)
  {
    twins, order := map[], [];
    for i := 0 to |unit|
      invariant order == Keys(v, unit[..i])
      invariant forall k :: k in twins <==> k in order
      invariant forall k :: k in twins ==> twins[k] == Group(v, unit[..i], k)
    {
      var box := unit[i];
      var innerValue := v[box];
      assert unit[..i + 1][..i] == unit[..i];
      KeysIff(v, unit[..i]);
      if innerValue in twins {
        twins := twins[innerValue := twins[innerValue] + [box]];
      } else {
        twins := twins[innerValue := [box]];
        order := order + [innerValue];
      }
    }
    assert unit[..|unit|] == unit;
  }

  /** One turn of naked_twins' second loop, for the key ks[j] whose boxes are
      group: the board, stripped so far by the naked groups among the earlier
      keys, is stripped by this key's group as well when it is naked. */
  method NakedKey(board: Board, log: AssignmentLog, unit: seq<string>, ks: seq<string>, j: nat,
                  group: seq<string>, ghost v0: Values)
    requires IsGrid(board.values) && IsGrid(v0) && forall x :: x in unit ==> IsBox(x)
    requires j < |ks| && group == Group(v0, unit, ks[j])
    requires board.values == UnitStripped(v0, unit, ks[..j])
    modifies board, log
    ensures IsGrid(board.values)
    ensures board.values == UnitStripped(v0, unit, ks[..j + 1])
    ensures old(log.assignments) <= log.assignments
  {
    ghost var v := board.values;
    var naked := NakedGroup(board, log, unit, ks[j], group);
    NakedStep(v0, v, board.values, unit, ks, j, group, naked);
  }

  /** Before any key is handled, every box keeps its string. */
  lemma NothingLockedOut(v0: Values, unit: seq<string>, ks: seq<string>)
    requires forall y :: y in unit ==> y in v0
    ensures UnitStripped(v0, unit, ks[..0]) == v0
  {
    forall x | x in v0 ensures Strip(v0[x], LockedOut(v0, unit, ks[..0], x)) == v0[x] {
      StripNothing(v0[x]);
    }
  }

  /** naked_twins' second loop for one unit: each key of ks in turn, its
      boxes looked up in twins, strips its digits from the unit's other
      boxes when its group is naked. */
  method ApplyNakedGroups(board: Board, log: AssignmentLog, unit: seq<string>, ks: seq<string>,
                          twins: map<string, seq<string>>)
    requires IsGrid(board.values) && forall x :: x in unit ==> IsBox(x)
    requires forall k :: k in ks ==> k in twins && twins[k] == Group(board.values, unit, k)
    modifies board, log
    ensures IsGrid(board.values)
    ensures board.values == UnitStripped(old(board.values), unit, ks)
    ensures old(log.assignments) <= log.assignments
  {
    ghost var v0 := board.values;
    NothingLockedOut(v0, unit, ks);
    for j := 0 to |ks|
      invariant IsGrid(board.values)
      invariant board.values == UnitStripped(v0, unit, ks[..j])
      invariant old(log.assignments) <= log.assignments
    {
      NakedKey(board, log, unit, ks, j, twins[ks[j]], v0);
    }
    assert ks[..|ks|] == ks;
  }

  /** naked_twins' work on one unit of one box: twins is built from the board
      as it is on entry, then each naked group, in key order, strips its
      digits from the other boxes of the unit. */
  method NakedTwinsInUnit(board: Board, log: AssignmentLog, unit: seq<string>)
    requires IsGrid(board.values) && forall x :: x in unit ==> IsBox(x)
    modifies board, log
    ensures IsGrid(board.values) && Refines(board.values, old(board.values))
    ensures board.values == UnitStripped(old(board.values), unit, Keys(old(board.values), unit))
    ensures old(log.assignments) <= log.assignments
  {
    ghost var v0 := board.values;
    var twins, order := BuildTwins(board.values, unit);
    ApplyNakedGroups(board, log, unit, order, twins);
    StripRefines(v0, board.values, unit, order);
  }

  /** A board where the boxes of a unit lost candidates by a strip refines
      the board it came from. */
  lemma StripRefines(v0: Values, w: Values, unit: seq<string>, ks: seq<string>)
    requires forall x :: x in unit ==> x in v0
    requires w == UnitStripped(v0, unit, ks)
    ensures Refines(w, v0)
  {
    forall x | x in unit {
      StripIff(v0[x], LockedOut(v0, unit, ks, x));
    }
  }

  /** After naked_twins has worked on a unit, the digits of each naked group
      are gone from every other box of the unit. */
  lemma NakedGroupsCleared(v0: Values, w: Values, unit: seq<string>)
    requires forall x :: x in unit ==> x in v0
    requires w == UnitStripped(v0, unit, Keys(v0, unit))
    ensures forall k, x, c :: IsNaked(v0, unit, k) && x in unit && x !in Group(v0, unit, k) && c in k ==>
      c !in w[x]
  {
    forall k, x, c | IsNaked(v0, unit, k) && x in unit && x !in Group(v0, unit, k) && c in k
      ensures c !in w[x]
    {
      KeysIff(v0, unit);
      GroupIff(v0, unit, k);
      assert k in Keys(v0, unit);
      LockedOutCovers(v0, unit, Keys(v0, unit), x);
      StripIff(v0[x], LockedOut(v0, unit, Keys(v0, unit), x));
    }
  }

  /** The inner loop of naked_twins for one box: each unit of the box in turn.
      Every unit of the box holds only the box and its peers, so no other box
      changes. */
  method NakedTwinsAtBox(board: Board, log: AssignmentLog, box: string)
    requires IsGrid(board.values)
    modifies board, log
    ensures IsGrid(board.values) && Refines(board.values, old(board.values))
    ensures forall x :: x in board.values && x != box && x !in Peers(box) ==>
      board.values[x] == old(board.values)[x]
    ensures old(log.assignments) <= log.assignments
  {
    ghost var v0 := board.values;
    var units := Units(box);
    for j := 0 to |units|
      invariant IsGrid(board.values) && Refines(board.values, v0)
      invariant forall x :: x in board.values && x != box && x !in Peers(box) ==>
        board.values[x] == v0[x]
      invariant old(log.assignments) <= log.assignments
    {
      UnitsAreUnits(box, units[j]);
      UnitsIff(box, units[j]);
      forall x | x in units[j] && x != box
        ensures x in Peers(box)
      {
        UnitMatesArePeers(units[j], box, x);
      }
      ghost var v := board.values;
      NakedTwinsInUnit(board, log, units[j]);
      RefinesTransitive(board.values, v, v0);
    }
  }

  /** Python's `naked_twins`: for every box and every unit of that box, the
      naked groups of the unit strip their digits from the unit's other boxes.
      The model visits the boxes in any order. The board only narrows. */
  method NakedTwins(board: Board, log: AssignmentLog)
    requires IsGrid(board.values)
    modifies board, log
    ensures IsGrid(board.values) && Refines(board.values, old(board.values))
    ensures old(log.assignments) <= log.assignments
  {
    ghost var v0 := board.values;
    var rest := board.values.Keys;
    while rest != {}
      invariant IsGrid(board.values) && Refines(board.values, v0)
      invariant old(log.assignments) <= log.assignments
      decreases rest
    {
      var box :| box in rest;
      ghost var v := board.values;
      NakedTwinsAtBox(board, log, box);
      RefinesTransitive(board.values, v, v0);
      rest := rest - {box};
    }
  }

  // ---------------------------------------------------------------------
  // reduce_puzzle

  /** A board that, after an elimination pass, was only narrowed further,
      kept every box, and solved no new box has no solved digit left in a
      peer: every box solved at the end was already solved, with the same
      digit, when the pass began, and the pass cleared its peers. */
  lemma StallSettles(w: Values, v: Values, u: Values)
    requires Refines(v, w) && Refines(u, v) && !HasEmpty(u)
    requires PeersCleared(w, v)
    requires |Solved(w)| == |Solved(u)|
    ensures NoConflicts(u)
  {
    RefinesTransitive(u, v, w);
    SolvedGrows(u, w);
    SubsetSameCard(Solved(w), Solved(u));
    forall b, p | b in u && |u[b]| == 1 && p in Peers(b) && p in u
      ensures u[b][0] !in u[p]
    {
      assert b in Solved(w);
      SolvedStays(w, v, u, b);
    }
  }

  /** A box solved in w and still solved in u held the same digit all along. */
  lemma SolvedStays(w: Values, v: Values, u: Values, b: string)
    requires Refines(v, w) && Refines(u, v)
    requires b in w && |w[b]| == 1 && |u[b]| == 1
    ensures u[b] == w[b] && v[b] == w[b]
  {
    assert u[b][0] in v[b];
    SingleStays(v[b], w[b]);
    SingleStays(u[b], w[b]);
  }

  /** Python's `reduce_puzzle`: eliminate, only_choice and naked_twins are
      repeated until a pass solves no new box. The result is false exactly
      when some box has been emptied; otherwise the board keeps no solved
      digit in a peer of its box. */
  method ReducePuzzle(board: Board, log: AssignmentLog) returns (ok: bool)
    requires IsGrid(board.values)
    modifies board, log
    ensures IsGrid(board.values) && Refines(board.values, old(board.values))
    ensures !ok <==> HasEmpty(board.values)
    ensures ok ==> NoConflicts(board.values)
    ensures old(log.assignments) <= log.assignments
  {
    ghost var v0 := board.values;
    var stalled := false;
    while !stalled
      invariant IsGrid(board.values) && Refines(board.values, v0)
      invariant stalled ==> !HasEmpty(board.values) && NoConflicts(board.values)
      invariant old(log.assignments) <= log.assignments
      decreases 81 - |Solved(board.values)| + (if stalled then 0 else 1)
    {
      SolvedBound(board.values);
      ghost var lastPass := board.values;
      var solvedValuesBefore := |Solved(board.values)|;
      Eliminate(board, log);
      ghost var eliminated := board.values;
      OnlyChoice(board, log);
      ghost var chosen := board.values;
      NakedTwins(board, log);
      RefinesTransitive(board.values, chosen, eliminated);
      RefinesTransitive(board.values, eliminated, lastPass);
      RefinesTransitive(board.values, lastPass, v0);
      var solvedValuesAfter := |Solved(board.values)|;
      stalled := solvedValuesBefore == solvedValuesAfter;
      var empty := set x | x in board.values && |board.values[x]| == 0;
      if |empty| > 0 {
        return false;
      }
      forall x | x in board.values ensures board.values[x] != "" {
        assert x !in empty;
      }
      SolvedGrows(board.values, lastPass);
      SolvedBound(board.values);
      if stalled {
        StallSettles(lastPass, eliminated, board.values);
      }
    }
    ok := true;
  }
}

=== FILE: solver.dfy ===
/** The top of the solver: the puzzle text turned into a board, the
    depth-first search that guesses a digit for the box with the fewest
    candidates, and solve, which chains the two. */
module Solver {
  import opened Topology
  import opened Candidates
  import opened Propagation

  datatype Option<T> = None | Some(value: T)

  /** What Python's `search` returns: False when reduce_puzzle emptied a
      box, None when every guess failed, or a solved board. */
  datatype SearchResult = Contradiction | Exhausted | Found(values: Values)

  /** w solves the puzzle v: a complete board, with no digit repeated
      among peers, that only narrows v. */
  ghost predicate SolutionOf(w: Values, v: Values) {
    IsGrid(w) && AllSolved(w) && NoConflicts(w) && Refines(w, v)
  }

  /** Python's `dict(zip(keys, chars))`: each key paired with the
      one-character string at the same position, later pairs overriding
      earlier ones. */
  function ZipPairs(keys: seq<string>, chars: string): (r: Values)
    requires |keys| == |chars|
  {
    if keys == [] then map[]
    else ZipPairs(keys[..|keys| - 1], chars[..|chars| - 1])[keys[|keys| - 1] := [chars[|chars| - 1]]]
  }

  /** With distinct keys, the i-th key holds the i-th character. */
  lemma {:induction false} ZipPairsAt(keys: seq<string>, chars: string)
    requires |keys| == |chars| && Distinct(keys)
    ensures forall x :: x in ZipPairs(keys, chars) <==> x in keys
    ensures forall i :: 0 <= i < |keys| ==> ZipPairs(keys, chars)[keys[i]] == [chars[i]]
  {
    if keys != [] {
      var n := |keys| - 1;
      ZipPairsAt(keys[..n], chars[..n]);
      assert forall x :: x in keys <==> x in keys[..n] || x == keys[n];
      forall i | 0 <= i < n ensures ZipPairs(keys, chars)[keys[i]] == [chars[i]] {
        assert keys[i] == keys[..n][i] && chars[i] == chars[..n][i];
      }
    }
  }

  /** `dict(zip(boxes, grid))` for a grid of 81 characters is a board whose
      box number i holds the i-th character. */
  lemma ZipShape(grid: string)
    requires |grid| == 81
    ensures IsGrid(ZipPairs(Boxes, grid))
    ensures forall i :: 0 <= i < 81 ==> Boxes[i] in ZipPairs(Boxes, grid) && ZipPairs(Boxes, grid)[Boxes[i]] == [grid[i]]
  {
    BoxesShape();
    ZipPairsAt(Boxes, grid);
    forall x ensures x in ZipPairs(Boxes, grid) <==> IsBox(x) {
      BoxMember(x);
    }
  }

  /** Python's `grid_values`: box number i (in row-major order) gets the
      i-th character of the grid, a '.' standing for all nine digits.
      None stands for the failed length assertion. The boxes are visited in
      any order. */
  method GridValues(grid: string) returns (r: Option<Values>)
    ensures r.None? <==> |grid| != 81
    ensures r.Some? ==> IsGrid(r.value)
    ensures r.Some? ==> forall i :: 0 <= i < |grid| && i < |Boxes| ==>
      Boxes[i] in r.value && r.value[Boxes[i]] == if grid[i] == '.' then Cols else [grid[i]]
  {
    if |grid| != 81 {
      return None;
    }
    BoxesShape();
    var grids := ZipPairs(Boxes, grid);
    ZipShape(grid);
    ghost var zipped := grids;
    var rest := grids.Keys;
    while rest != {}
      invariant IsGrid(grids) && forall x :: x in grids <==> x in zipped
      invariant forall x :: x in grids ==>
        grids[x] == if x !in rest && zipped[x] == "." then Cols else zipped[x]
      decreases rest
    {
      var key :| key in rest;
      var value := grids[key];
      if value == "." {
        grids := grids[key := Cols];
      }
      rest := rest - {key};
    }
    DotsReplaced(grid, grids);
    return Some(grids);
  }

  /** Replacing every "." of the zipped grid by all nine digits gives box
      number i the i-th character, or all nine digits for a dot. */
  lemma DotsReplaced(grid: string, w: Values)
    requires |grid| == 81
    requires forall x :: x in w <==> x in ZipPairs(Boxes, grid)
    requires forall x :: x in w ==>
      w[x] == if ZipPairs(Boxes, grid)[x] == "." then Cols else ZipPairs(Boxes, grid)[x]
    ensures forall i :: 0 <= i < |grid| && i < |Boxes| ==>
      Boxes[i] in w && w[Boxes[i]] == if grid[i] == '.' then Cols else [grid[i]]
  {
    ZipShape(grid);
  }

  /** The choice of search's branching box (solution.py:163): among the
      boxes with more than one candidate, the one with the fewest, and of
      those the smallest name, as Python orders (count, name) pairs. Some box
      must be unsolved. The boxes are visited in any order. */
  method MinUnsolved(values: Values) returns (n: nat, s: string)
    requires exists t :: t in values && |values[t]| > 1
    ensures s in values && n == |values[s]| && n > 1
    ensures forall t :: t in values && |values[t]| > 1 && t != s ==>
      n < |values[t]| || (n == |values[t]| && StrLess(s, t))
  {
    var found := false;
    n, s := 0, "";
    var rest := values.Keys;
    while rest != {}
      invariant found ==> s in values && n == |values[s]| && n > 1
      invariant forall t :: t in values && t !in rest && |values[t]| > 1 ==>
        found && (t == s || n < |values[t]| || (n == |values[t]| && StrLess(s, t)))
      invariant forall t :: t in rest ==> t in values
      decreases rest
    {
      var t :| t in rest;
      if |values[t]| > 1 && (!found || |values[t]| < n || (|values[t]| == n && StrLess(t, s))) {
        forall u | u in values && u !in rest && |values[u]| > 1 && u != t
          ensures |values[t]| < |values[u]| || (|values[t]| == |values[u]| && StrLess(t, u))
        {
          if u != s && |values[t]| == n == |values[u]| {
            StrLessTransitive(t, s, u);
          }
        }
        found, n, s := true, |values[t]|, t;
      } else if |values[t]| > 1 && t != s {
        StrLessTotal(t, s);
      }
      rest := rest - {t};
    }
  }

  /** Python's `search`: reduce the board in place; stop on an emptied box or
      a complete board; otherwise try each candidate of the box MinUnsolved
      picks, in string order, on a copy of the board, and return the first
      solution found. The board is changed only by reduce_puzzle, so unless
      that found a contradiction it ends without conflicts. */
  method Search(board: Board, log: AssignmentLog) returns (r: SearchResult)
    requires IsGrid(board.values)
    modifies board, log
    ensures IsGrid(board.values) && Refines(board.values, old(board.values))
    ensures r.Contradiction? <==> HasEmpty(board.values)
    ensures !r.Contradiction? ==> NoConflicts(board.values)
    ensures r.Found? ==> SolutionOf(r.values, old(board.values))
    ensures old(log.assignments) <= log.assignments
    decreases Size(board.values)
  {
    ghost var v0 := board.values;
    var ok := ReducePuzzle(board, log);
    if !ok {
      return Contradiction;
    }
    if AllSolved(board.values) {
      return Found(board.values);
    }
    var n, s := MinUnsolved(board.values);
    SizeShrinks(board.values, v0, s);
    ghost var reduced := board.values;
    var digits := board.values[s];
    for i := 0 to |digits|
      invariant board.values == reduced
      invariant old(log.assignments) <= log.assignments
    {
      var newSudoku := new Board(board.values[s := [digits[i]]]);
      ghost var child := newSudoku.values;
      SizeShrinks(child, board.values, s);
      var attempt := Search(newSudoku, log);
      if attempt.Found? {
        RefinesTransitive(child, board.values, v0);
        RefinesTransitive(attempt.values, child, v0);
        return attempt;
      }
    }
    return Exhausted;
  }

  /** Python's `solve`: search on the board grid_values builds. A solution
      keeps every given digit, and when the grid holds only digits and dots
      the solution holds only digits. */
  method Solve(grid: string, log: AssignmentLog) returns (r: Option<SearchResult>)
    modifies log
    ensures r.None? <==> |grid| != 81
    ensures r.Some? && r.value.Found? ==> IsGrid(r.value.values) && AllSolved(r.value.values) && NoConflicts(r.value.values)
    ensures r.Some? && r.value.Found? ==> forall i :: 0 <= i < |grid| && i < |Boxes| && grid[i] != '.' ==>
      Boxes[i] in r.value.values && r.value.values[Boxes[i]] == [grid[i]]
    ensures r.Some? && r.value.Found? && (forall i :: 0 <= i < |grid| ==> grid[i] == '.' || grid[i] in Cols) ==>
      OnlyDigits(r.value.values)
    ensures old(log.assignments) <= log.assignments
  {
    var values := GridValues(grid);
    if values.None? {
      return None;
    }
    var board := new Board(values.value);
    var result := Search(board, log);
    r := Some(result);
    if result.Found? {
      GivensKept(grid, values.value, result.values);
    }
  }

  /** A solution of the board grid_values builds keeps its given digits,
      and holds only digits when the grid held only digits and dots. */
  lemma GivensKept(grid: string, v: Values, w: Values)
    requires |grid| == 81 && IsGrid(v)
    requires forall i :: 0 <= i < |grid| && i < |Boxes| ==>
      Boxes[i] in v && v[Boxes[i]] == if grid[i] == '.' then Cols else [grid[i]]
    requires SolutionOf(w, v)
    ensures forall i :: 0 <= i < |grid| && i < |Boxes| && grid[i] != '.' ==>
      Boxes[i] in w && w[Boxes[i]] == [grid[i]]
    ensures (forall i :: 0 <= i < |grid| ==> grid[i] == '.' || grid[i] in Cols) ==> OnlyDigits(w)
  {
    BoxesShape();
    forall i | 0 <= i < 81 && grid[i] != '.' ensures w[Boxes[i]] == [grid[i]] {
      assert |w[Boxes[i]]| == 1;
      SingleStays(w[Boxes[i]], v[Boxes[i]]);
    }
    if forall i :: 0 <= i < |grid| ==> grid[i] == '.' || grid[i] in Cols {
      forall x, c | x in w && c in w[x] ensures c in Cols {
        BoxMember(x);
        var i :| 0 <= i < 81 && Boxes[i] == x;
        assert c in v[x];
      }
    }
  }
}

=== FILE: topology.dfy ===
/** The fixed geometry of a diagonal Sudoku: 81 boxes named by a row letter
    and a column digit, the 29 units (9 rows, 9 columns, 9 squares and the two
    main diagonals), and for every box the units it lies in and its peers. */
module Topology {

  const Rows: string := "ABCDEFGHI"
  const Cols: string := "123456789"

  /** No element occurs twice. */
  ghost predicate Distinct<T>(s: seq<T>) {
    forall i, j :: 0 <= i < j < |s| ==> s[i] != s[j]
  }

  /** Characters in strictly increasing order. */
  ghost predicate Ascending(s: string) {
    forall i, j :: 0 <= i < j < |s| ==> s[i] < s[j]
  }

  /** The same, one neighbour pair at a time (easy to check on a literal). */
  predicate StepsUp(s: string) {
    |s| < 2 || (s[0] < s[1] && StepsUp(s[1..]))
  }

  /** String order as Python compares two strings: character by character,
      a proper prefix coming first. */
  predicate StrLess(a: string, b: string)
    decreases |a|
  {
    if a == [] then b != []
    else b != [] && (a[0] < b[0] || (a[0] == b[0] && StrLess(a[1..], b[1..])))
  }

  lemma {:induction false} StrLessIrreflexive(a: string)
    ensures !StrLess(a, a)
  {
    if a != [] {
      StrLessIrreflexive(a[1..]);
    }
  }

  lemma {:induction false} StrLessTransitive(a: string, b: string, c: string)
    requires StrLess(a, b) && StrLess(b, c)
    ensures StrLess(a, c)
  {
    if a != [] && a[0] == b[0] && b[0] == c[0] {
      StrLessTransitive(a[1..], b[1..], c[1..]);
    }
  }

  /** Two different strings are ordered one way or the other. */
  lemma {:induction false} StrLessTotal(a: string, b: string)
    requires a != b
    ensures StrLess(a, b) || StrLess(b, a)
  {
    if a != [] && b != [] && a[0] == b[0] {
      assert a == [a[0]] + a[1..] && b == [b[0]] + b[1..];
      StrLessTotal(a[1..], b[1..]);
    }
  }

  /** Every name is smaller than the names after it. */
  ghost predicate SortedNames(s: seq<string>) {
    forall i, j :: 0 <= i < j < |s| ==> StrLess(s[i], s[j])
  }

  /** One row of a cross product: the names x b[0], x b[1], ... */
  function RowOf(x: char, b: string): (r: seq<string>) {
    seq(|b|, j requires 0 <= j < |b| => [x, b[j]])
  }

  /** Cross product of the characters of a and those of b, a outermost. */
  function Cross(a: string, b: string): (r: seq<string>)
    decreases |a|
  {
    if a == [] then [] else RowOf(a[0], b) + Cross(a[1..], b)
  }

  /** Python's `boxes`, `cross(rows, cols)`, written out position by
      position (BoxesAreCross shows the two agree). */
  const Boxes: seq<string> := BoxNames()

  function BoxNames(): (r: seq<string>) {
    seq(81, i requires 0 <= i < 81 => [Rows[i / 9], Cols[i % 9]])
  }

  /** Python's row_units, column_units, square_units and diag_units. */
  function RowUnits(): (r: seq<seq<string>>) {
    seq(|Rows|, i requires 0 <= i < |Rows| => Cross([Rows[i]], Cols))
  }

  function ColumnUnits(): (r: seq<seq<string>>) {
    seq(|Cols|, i requires 0 <= i < |Cols| => Cross(Rows, [Cols[i]]))
  }

  const RowBands: seq<string> := ["ABC", "DEF", "GHI"]
  const ColBands: seq<string> := ["123", "456", "789"]

  function SquareUnits(): (r: seq<seq<string>>) {
    seq(9, k requires 0 <= k < 9 => Cross(RowBands[k / 3], ColBands[k % 3]))
  }

  /** The main diagonal A1..I9 and the anti-diagonal A9..I1. */
  function DiagUnits(): (r: seq<seq<string>>) {
    [ seq(9, i requires 0 <= i < 9 => [Rows[i], Cols[i]]),
      seq(9, i requires 0 <= i < 9 => [Rows[i], Cols[8 - i]]) ]
  }

  /** All 29 units, in Python's unitlist order. */
  function UnitList(): (r: seq<seq<string>>) {
    RowUnits() + ColumnUnits() + SquareUnits() + DiagUnits()
  }

  /** The units of us that contain s, in the order of us. */
  function UnitsContaining(us: seq<seq<string>>, s: string): (r: seq<seq<string>>)
  {
    if us == [] then []
    else (if s in us[0] then [us[0]] else []) + UnitsContaining(us[1..], s)
  }

  /** The units a box lies in. */
  function Units(s: string): (r: seq<seq<string>>) {
    UnitsContaining(UnitList(), s)
  }

  /** Concatenation of a list of units. */
  function Flatten(us: seq<seq<string>>): (r: seq<string>)
  {
    if us == [] then [] else us[0] + Flatten(us[1..])
  }

  /** Some unit of us contains t. */
  predicate InSome(us: seq<seq<string>>, t: string) {
    us != [] && (t in us[0] || InSome(us[1..], t))
  }

  /** Every box sharing a unit with s, other than s itself. PeersAsUnion shows
      this is the union of the units of s without s. */
  function Peers(s: string): (r: set<string>) {
    set t | t in Boxes && t != s && InSome(Units(s), t)
  }

  /** A box name: a row letter followed by a column digit. BoxMember shows
      these are exactly the elements of Boxes. */
  predicate IsBox(x: string) {
    |x| == 2 && 'A' <= x[0] <= 'I' && '1' <= x[1] <= '9'
  }

  /** The shape every unit has. */
  ghost predicate IsUnit(u: seq<string>) {
    |u| == 9 && Distinct(u) && forall x :: x in u ==> IsBox(x)
  }

  // ---------------------------------------------------------------------
  // The cross product

  lemma {:induction false} CrossLength(a: string, b: string)
    ensures |Cross(a, b)| == |a| * |b|
  {
    if a != [] {
      CrossLength(a[1..], b);
      assert |a| * |b| == |b| + (|a| - 1) * |b|;
    }
  }

  lemma {:induction false} CrossMember(a: string, b: string, x: string)
    ensures x in Cross(a, b) <==> |x| == 2 && x[0] in a && x[1] in b
  {
    if a != [] {
      CrossMember(a[1..], b, x);
      if |x| == 2 && x[0] == a[0] && x[1] in b {
        var j :| 0 <= j < |b| && b[j] == x[1];
        assert RowOf(a[0], b)[j] == x;
      }
      if |x| == 2 && x[0] in a && x[1] in b && x[0] != a[0] {
        assert x[0] in a[1..];
      }
    }
  }

  /** Position i * |b| + j of the cross product names a[i] b[j]: row-major order. */
  lemma {:induction false} CrossAt(a: string, b: string, i: nat, j: nat)
    requires i < |a| && j < |b|
    ensures |Cross(a, b)| == |a| * |b| && i * |b| + j < |Cross(a, b)|
    ensures Cross(a, b)[i * |b| + j] == [a[i], b[j]]
  {
    CrossLength(a, b);
    CrossLength(a[1..], b);
    if i > 0 {
      CrossAt(a[1..], b, i - 1, j);
      assert i * |b| + j == |b| + ((i - 1) * |b| + j);
    }
  }

  lemma {:induction false} CrossDistinct(a: string, b: string)
    requires Distinct(a) && Distinct(b)
    ensures Distinct(Cross(a, b))
  {
    if a != [] {
      CrossDistinct(a[1..], b);
      var row, rest := RowOf(a[0], b), Cross(a[1..], b);
      forall i, j | 0 <= i < j < |row + rest| ensures (row + rest)[i] != (row + rest)[j] {
        if j < |row| {
          assert row[i][1] != row[j][1];
        } else if i < |row| {
          CrossMember(a[1..], b, rest[j - |row|]);
          assert rest[j - |row|] in rest;
          assert rest[j - |row|][0] in a[1..];
        }
      }
    }
  }

  lemma {:induction false} StepsUpAscending(s: string)
    requires StepsUp(s)
    ensures Ascending(s)
  {
    if |s| >= 2 {
      StepsUpAscending(s[1..]);
      forall i, j | 0 <= i < j < |s| ensures s[i] < s[j] {
        if i > 0 {
          assert s[i] == s[1..][i - 1] && s[j] == s[1..][j - 1];
        } else if j > 1 {
          assert s[1] == s[1..][0] && s[j] == s[1..][j - 1];
        }
      }
    }
  }

  lemma {:induction false} CrossSorted(a: string, b: string)
    requires Ascending(a) && Ascending(b)
    ensures SortedNames(Cross(a, b))
  {
    if a != [] {
      CrossSorted(a[1..], b);
      var row, rest := RowOf(a[0], b), Cross(a[1..], b);
      forall i, j | 0 <= i < j < |row + rest| ensures StrLess((row + rest)[i], (row + rest)[j]) {
        if j < |row| {
          assert StrLess([b[i]], [b[j]]);
        } else if i < |row| {
          var y := rest[j - |row|];
          CrossMember(a[1..], b, y);
          assert y in rest;
          assert y[0] in a[1..];
        }
      }
    }
  }

  // ---------------------------------------------------------------------
  // The tables

  lemma RowsAndColsAscending()
    ensures Ascending(Rows) && Ascending(Cols)
    ensures Distinct(Rows) && Distinct(Cols)
  {
    assert StepsUp(Rows[8..]);
    assert StepsUp(Rows[7..]);
    assert StepsUp(Rows[6..]);
    assert StepsUp(Rows[5..]);
    assert StepsUp(Rows[4..]);
    assert StepsUp(Rows[3..]);
    assert StepsUp(Rows[2..]);
    assert StepsUp(Rows[1..]);
    assert StepsUp(Rows);
    assert StepsUp(Cols[8..]);
    assert StepsUp(Cols[7..]);
    assert StepsUp(Cols[6..]);
    assert StepsUp(Cols[5..]);
    assert StepsUp(Cols[4..]);
    assert StepsUp(Cols[3..]);
    assert StepsUp(Cols[2..]);
    assert StepsUp(Cols[1..]);
    assert StepsUp(Cols);
    StepsUpAscending(Rows);
    StepsUpAscending(Cols);
  }

  /** The boxes are the cross product of the row letters and the column digits. */
  lemma BoxesAreCross()
    ensures Boxes == Cross(Rows, Cols)
  {
    CrossLength(Rows, Cols);
    forall i | 0 <= i < 81 ensures Boxes[i] == Cross(Rows, Cols)[i] {
      CrossAt(Rows, Cols, i / 9, i % 9);
    }
  }

  /** The 81 boxes are distinct and in ascending name order. */
  lemma BoxesShape()
    ensures |Boxes| == 81 && Distinct(Boxes) && SortedNames(Boxes)
  {
    BoxesAreCross();
    RowsAndColsAscending();
    CrossLength(Rows, Cols);
    CrossDistinct(Rows, Cols);
    CrossSorted(Rows, Cols);
  }

  /** The boxes are exactly the names of a row letter followed by a column digit. */
  lemma BoxMember(x: string)
    ensures x in Boxes <==> IsBox(x)
  {
    BoxesAreCross();
    CrossMember(Rows, Cols, x);
    if |x| == 2 {
      RowAndColumnNames(x[0]);
      RowAndColumnNames(x[1]);
    }
  }

  /** The row letters are A to I and the column digits 1 to 9. */
  lemma RowAndColumnNames(ch: char)
    ensures ch in Rows <==> 'A' <= ch <= 'I'
    ensures ch in Cols <==> '1' <= ch <= '9'
  {
    if 'A' <= ch <= 'I' {
      var i := (ch as int) - ('A' as int);
      assert Rows[i] == ch;
    }
    if '1' <= ch <= '9' {
      var i := (ch as int) - ('1' as int);
      assert Cols[i] == ch;
    }
  }

  /** Box number 9 r + c is row r, column c: row-major order. */
  lemma BoxAt(r: nat, c: nat)
    requires r < 9 && c < 9
    ensures 9 * r + c < |Boxes| && Boxes[9 * r + c] == [Rows[r], Cols[c]]
  {
    assert (9 * r + c) / 9 == r && (9 * r + c) % 9 == c;
  }

  /** A cross product of distinct row letters and distinct column digits with
      nine names is a unit. */
  lemma CrossUnit(a: string, b: string)
    requires Distinct(a) && Distinct(b) && |a| * |b| == 9
    requires forall c :: c in a ==> c in Rows
    requires forall c :: c in b ==> c in Cols
    ensures IsUnit(Cross(a, b))
  {
    CrossLength(a, b);
    CrossDistinct(a, b);
    forall x | x in Cross(a, b) ensures IsBox(x) {
      CrossMember(a, b, x);
      RowAndColumnNames(x[0]);
      RowAndColumnNames(x[1]);
    }
  }

  lemma RowAndColumnUnitsShape()
    ensures |RowUnits()| == 9 && forall k :: 0 <= k < 9 ==> IsUnit(RowUnits()[k])
    ensures |ColumnUnits()| == 9 && forall k :: 0 <= k < 9 ==> IsUnit(ColumnUnits()[k])
  {
    RowsAndColsAscending();
    forall k | 0 <= k < 9 ensures IsUnit(RowUnits()[k]) && IsUnit(ColumnUnits()[k]) {
      CrossUnit([Rows[k]], Cols);
      CrossUnit(Rows, [Cols[k]]);
    }
  }

  lemma SquareUnitsShape()
    ensures |SquareUnits()| == 9 && forall k :: 0 <= k < 9 ==> IsUnit(SquareUnits()[k])
  {
    forall k | 0 <= k < 9 ensures IsUnit(SquareUnits()[k]) {
      var a, b := RowBands[k / 3], ColBands[k % 3];
      assert Distinct(a) && Distinct(b);
      CrossUnit(a, b);
    }
  }

  lemma DiagUnitsShape()
    ensures |DiagUnits()| == 2 && forall k :: 0 <= k < 2 ==> IsUnit(DiagUnits()[k])
  {
    RowsAndColsAscending();
    forall k, i, j | 0 <= k < 2 && 0 <= i < j < 9 ensures DiagUnits()[k][i] != DiagUnits()[k][j] {
      assert DiagUnits()[k][i][0] == Rows[i] && DiagUnits()[k][j][0] == Rows[j];
    }
  }

  /** The 29 units: nine distinct boxes each. */
  lemma UnitListShape()
    ensures |UnitList()| == 29
    ensures forall u :: u in UnitList() ==> IsUnit(u)
  {
    RowAndColumnUnitsShape();
    SquareUnitsShape();
    DiagUnitsShape();
    var us := UnitList();
    forall u | u in us ensures IsUnit(u) {
      var k :| 0 <= k < 29 && us[k] == u;
      if k < 9 {
        assert u == RowUnits()[k];
      } else if k < 18 {
        assert u == ColumnUnits()[k - 9];
      } else if k < 27 {
        assert u == SquareUnits()[k - 18];
      } else {
        assert u == DiagUnits()[k - 27];
      }
    }
  }

  lemma UnitShape(u: seq<string>)
    requires u in UnitList()
    ensures IsUnit(u)
  {
    UnitListShape();
  }

  lemma {:induction false} UnitsContainingIff(us: seq<seq<string>>, s: string, u: seq<string>)
    ensures u in UnitsContaining(us, s) <==> u in us && s in u
  {
    if us != [] {
      UnitsContainingIff(us[1..], s, u);
      if u in us && u != us[0] {
        assert u in us[1..];
      }
    }
  }

  /** units[s] lists exactly the units that contain s. */
  lemma UnitsIff(s: string, u: seq<string>)
    ensures u in Units(s) <==> u in UnitList() && s in u
  {
    UnitsContainingIff(UnitList(), s, u);
  }

  /** Every unit of a box is a unit of the board, so its entries are boxes. */
  lemma UnitsAreUnits(s: string, u: seq<string>)
    requires u in Units(s)
    ensures s in u && IsUnit(u)
  {
    UnitsIff(s, u);
    UnitShape(u);
  }

  lemma {:induction false} FlattenIff(us: seq<seq<string>>, t: string)
    ensures t in Flatten(us) <==> exists u :: u in us && t in u
  {
    if us != [] {
      FlattenIff(us[1..], t);
      if exists u :: u in us && t in u {
        var u :| u in us && t in u;
        if u != us[0] {
          assert u in us[1..];
        }
      }
    }
  }

  lemma {:induction false} InSomeIff(us: seq<seq<string>>, t: string)
    ensures InSome(us, t) <==> exists u :: u in us && t in u
  {
    if us != [] {
      InSomeIff(us[1..], t);
      if exists u :: u in us && t in u {
        var u :| u in us && t in u;
        if u != us[0] {
          assert u in us[1..];
        }
      }
    }
  }

  /** The peers of s are the other boxes that share some unit with s. */
  lemma PeerIff(s: string, t: string)
    ensures s !in Peers(s)
    ensures t in Peers(s) <==> t != s && exists u :: u in UnitList() && s in u && t in u
  {
    BoxMember(t);
    InSomeIff(Units(s), t);
    if InSome(Units(s), t) {
      var u :| u in Units(s) && t in u;
      UnitsIff(s, u);
      UnitShape(u);
    }
    if t != s && exists u :: u in UnitList() && s in u && t in u {
      var u :| u in UnitList() && s in u && t in u;
      UnitsIff(s, u);
      UnitShape(u);
    }
  }

  /** Peers, as Python builds them: all boxes of the units of s, minus s. */
  lemma PeersAsUnion(s: string)
    ensures Peers(s) == (set t | t in Flatten(Units(s))) - {s}
  {
    forall t ensures t in Peers(s) <==> t in Flatten(Units(s)) && t != s {
      FlattenIff(Units(s), t);
      PeerIff(s, t);
      if t in Flatten(Units(s)) {
        var u :| u in Units(s) && t in u;
        UnitsIff(s, u);
      }
      if t in Peers(s) {
        var u :| u in UnitList() && s in u && t in u;
        UnitsIff(s, u);
      }
    }
  }

  /** Being peers is a symmetric relation. */
  lemma PeersSymmetric(s: string, t: string)
    ensures t in Peers(s) <==> s in Peers(t)
  {
    PeerIff(s, t);
    PeerIff(t, s);
  }

  /** Two different boxes of one unit are peers. */
  lemma UnitMatesArePeers(u: seq<string>, s: string, t: string)
    requires u in UnitList() && s in u && t in u && s != t
    ensures t in Peers(s)
  {
    PeerIff(s, t);
  }

  /** Every peer is a box. */
  lemma PeersAreBoxes(s: string)
    ensures forall t :: t in Peers(s) ==> IsBox(t)
  {
    forall t | t in Peers(s) ensures IsBox(t) {
      BoxMember(t);
    }
  }
}
